=== FILE: README.md ===
# Import-Export Middleman Portal — a Dafny model of its core

The portal is a single Streamlit script (`app.py`) serving three roles: Buyer, Customer (seller) and Middleman (admin). Under its widgets sit three small pieces of logic, and this project models and proves properties about each of them:

- **The confidentiality scanner** (`detect_violation`). It lower-cases a text and reports a violation when one of six fixed keywords occurs in it: `email`, `@`, `phone`, `contact`, `whatsapp`, `mobile`.
- **The user table** (`save_user`, `authenticate_user`, `user_exists`) and the Sign Up button.
  - The table is a sequence of rows `(username, hashedPassword, role)`.
  - Sign-up is an append, guarded by two checks.
  - Login returns the role of the first row whose username and password digest both match.
- **The session and the dashboard gate.** A visitor starts anonymous, and a successful login records the role and username. Nothing is rendered until the confidentiality box is ticked. After that:
  - Buyers walk the products in order and stop immediately after the first one the scanner flags.
  - Customers do the same with the buyer requests.
  - The Middleman sees all three tables, unscanned.

Files and modules:

- `options.dfy` — `Options`: `Option` and `Result`.
- `scanner.dfy` — `Scanner`: ASCII lower-casing, Python's substring test, the keyword scan.
- `credentials.dfy` — `Credentials`: roles, rows, the table, `SaveUser`, `Authenticate`, `SignUp`.
- `session.dfy` — `SessionState`: the session state machine and `Login`.
- `dashboard.dfy` — `Dashboard`: product and request records, the halting listing, the role views.
- `portal.dfy` — `Portal`: one run of the script (`Step`) and a chain of runs (`Run`), with the invariant that chaining preserves.

The SHA-256 digest is passed in as a parameter `hash: string -> string`. A Dafny function value is deterministic, and nothing else is assumed about it: in particular it is not assumed to be collision-free. For that reason, "wrong password" is stated as "a password whose digest differs from the stored one".

Two points about the session and the user table:

- **Logging in again.** In `app.py:67,90-102` the Login form stays available, so a second successful login replaces the role and username. A failed login leaves the session, authenticated or not, as it was.
- **Sign-up round trip.** This property does not need the uniqueness invariant. Sign-up succeeds only when no row carries the username, so the new row is the first match (`Credentials.SignUpThenAuthenticate`).

## Model

| member | source | states |
|---|---|---|
| `Scanner.OccursIffSubstring` | app.py:59 | Python's `word in text` agrees with "`word` is a contiguous slice of `text`", in both directions |
| `Scanner.ScanKeywords` | app.py:58-61 | the keyword loop, which returns at the first hit, is true exactly when some keyword in the list is a slice of the lowered text |
| `Scanner.DetectViolation` | app.py:56-61 | a text is flagged exactly when one of `email`, `@`, `phone`, `contact`, `whatsapp`, `mobile` is a slice of its lower-cased form |
| `Scanner.LowerIdempotent` | app.py:59 | lower-casing an already lower-cased text changes nothing |
| `Scanner.DetectViolationCaseInsensitive` | app.py:59 | the scanner gives the same verdict for a text and for its lower-cased form |
| `Scanner.MissingCharNotSubstring` | app.py:59 | a keyword containing a character absent from the text cannot occur in it |
| `Scanner.NoKeywordWithout` | app.py:57-61 | a lower-case text lacking `a`, `@`, `p` and `o` contains none of the six keywords |
| `Scanner.ContactDetailsFlagged` | app.py:56-61 | "contact me at x@y.com" is flagged |
| `Scanner.ContactPaperFlagged` | app.py:56-61 | the innocent product text "Contact Paper roll" is flagged too (a false positive inherent to substring matching) |
| `Scanner.PlainTextPasses` | app.py:56-61 | "blue t-shirt, size M" is not flagged |
| `Credentials.UserExists` | app.py:38-40 | the scan of the username column is true exactly when some row carries the username |
| `Credentials.SaveUser` | app.py:22-27 | saving appends exactly one row `(u, h, r)` at the end; every earlier row is unchanged and keeps its position |
| `Credentials.Authenticate` | app.py:29-36 | login answers None exactly when no row matches both the username and the password digest; otherwise it answers the role of the first matching row |
| `Credentials.SignUp` | app.py:80-87 | a taken username is refused (whatever the password); otherwise an empty username or password is refused; otherwise the result is the table with `(u, hash(p), r)` appended |
| `Credentials.SignUpOnlyAppends` | app.py:80-87 | a successful sign-up keeps the old table as a prefix and adds one row holding the username, digest and role |
| `Credentials.SignUpPreservesUnique` | app.py:81-84 | sign-up on a table with unique usernames leaves the usernames unique |
| `Credentials.AuthenticateStableUnderAppend` | app.py:22-36 | appending a row never changes the answer of a login that already succeeded |
| `Credentials.SignUpThenAuthenticate` | app.py:22-36 | after a successful sign-up of `(u, p, r)`, logging in as `u` with `p` answers `r` |
| `Credentials.DuplicateSignUpRejected` | app.py:81-82 | signing up a username that some row already carries fails with the duplicate-user error, whatever the password and role |
| `Credentials.WrongPasswordRejected` | app.py:29-36 | with unique usernames, a registered user's login with a password whose digest differs from the stored one answers None |
| `Credentials.AliceScenario` | app.py:80-102 | after signing up alice/pw123 as Buyer on an empty table, alice/pw123 logs in as Buyer and alice/wrong is refused |
| `SessionState.Start` | app.py:69-72 | a returning visitor keeps the session the previous run left; a first run never starts authenticated, so it starts anonymous |
| `SessionState.Login` | app.py:94-102 | when no row matches, the session is unchanged; when one does, the session becomes authenticated as the typed username with the role of the first matching row |
| `SessionState.FreshSessionAnonymous` | app.py:69-72 | a new visitor's session is unauthenticated, with no role and no username |
| `SessionState.LoginKeepsBacked` | app.py:95-99 | after a login, an authenticated session still names a row of the table, with that row's role |
| `SessionState.BackedUnderAppend` | app.py:22-27 | a session that names a row still names it after rows are appended |
| `Dashboard.ListUntilViolation` | app.py:121-134 | the rendered rows are an in-order prefix of the records; rendering halts exactly when some record is flagged; a halting render ends on a flagged row and every earlier shown row is clean; a clean table is shown whole |
| `Dashboard.Render` | app.py:105-161 | an anonymous session gets no dashboard; an authenticated one without the acknowledgment gets only the warning; with the acknowledgment, Buyer, Customer and Middleman each get exactly their own view |
| `Dashboard.NoAcknowledgmentNoRecords` | app.py:108-110 | without the acknowledgment no record is rendered, whatever the session |
| `Dashboard.HaltsAtFirstViolation` | app.py:132-134 | if record k is the first flagged one, the rendered rows are exactly records 0..k and rendering halts |
| `Dashboard.BuyerStopsAtFirstViolation` | app.py:121-134 | an acknowledged Buyer sees the products up to and including the first flagged one, and nothing after it |
| `Dashboard.SellerStopsAtFirstViolation` | app.py:143-148 | an acknowledged Customer sees the buyer requests up to and including the first flagged one, and nothing after it |
| `Dashboard.BuyerSeesAllCleanProducts` | app.py:117-134 | when no product is flagged, an acknowledged Buyer sees every product and rendering does not halt |
| `Dashboard.SellerSeesAllCleanRequests` | app.py:139-148 | when no request is flagged, an acknowledged Customer sees every request and rendering does not halt |
| `Dashboard.MiddlemanSeesEverything` | app.py:151-161 | an acknowledged Middleman sees the users, products and requests tables whole, flagged records included |
| `Portal.Step` | app.py:69-161 | one run: an unpressed button changes nothing; a pressed Login sets the session to what `Login` gives for the typed credentials; a pressed Sign Up stores the table `SignUp` produces when it succeeds and leaves the tables alone when it refuses; sign-up never changes the session; login never changes the tables; the product and request tables never change; the user table grows by at most one appended row; only a pressed Login can change the session, and then only to an authenticated session for the typed username; the view is the one rendered for the session and tables the form leaves, so an anonymous run renders no dashboard |
| `Portal.StepPreservesConsistent` | app.py:80-102 | one run keeps usernames unique and keeps an authenticated session tied to a row with its role |
| `Portal.RunPreservesConsistent` | app.py:69-161 | any chain of runs keeps that invariant and only appends to the user table |
| `Portal.AnonymousWithoutLogin` | app.py:69-102 | a visitor who never presses Login stays anonymous, however many sign-ups and runs happen |
| `Portal.SignUpThenLoginDashboard` | app.py:75-161 | a fresh visitor who signs up stays anonymous and sees no dashboard; logging in with the same credentials authenticates them with the registered role but, with the box still unticked, shows only the acknowledgment warning; the next run with the box ticked renders that role's dashboard |
| `Portal.FailedLoginChangesNothing` | app.py:94-102 | a login that matches no row leaves the session and the tables as they were and shows the invalid-credentials message |

## Left out

- Streamlit widgets, layout, page configuration, titles and message texts are not modelled (`app.py:7,53-54,64-67`). The choice between the two forms is an `Action`, the checkbox is a boolean input to every run (the script only draws it once the session is authenticated, so it is always unticked in the first authenticated run; the model does not enforce that, and `Portal.SignUpThenLoginDashboard` states the trace the script actually shows), the messages are a `Notice`, and `st.stop()` appears only as the point where a listing halts.
- Image display and the `os.path.exists` check on image paths (`app.py:122-127`) are not modelled. They do not change which rows are rendered unless the check raises: an empty image-path cell is read as NaN, and `os.path.exists` on it raises, which ends the run at that row before its text is drawn or scanned. That error path is not modelled.
- Reading and writing the CSV files (`app.py:17-20,43-51`) is not modelled. Each table is a sequence, and a missing file is the empty sequence. pandas type inference is out of scope: a username of digits is read back as a number, and a username such as `NA`, `N/A`, `null` or `nan` is read back as a missing value. Such a user can never log in and the same name can be registered again, so the source does not keep the round trip and uniqueness that `Credentials.SignUpThenAuthenticate` and `Credentials.SignUpPreservesUnique` prove for the model. A failing write is not modelled either: the script never creates the `data` directory, so `save_user` raises when it is missing.
- The SHA-256 computation (`app.py:14-15`) is not modelled. It is a foreign library, represented by the deterministic `hash` parameter.
- The exact text of `str(row)` passed to the scanner (`app.py:132,146`) is not modelled. Each record carries an abstract `scanText`.
- Python's `str.lower` does full Unicode lower-casing; the model lowers ASCII letters only. All six keywords are ASCII.
- A role value other than the three the sign-up form offers is not modelled. Only a hand-edited users file could hold one, and it would render no dashboard. The table stores roles as an enumeration, so `if role:` (`app.py:96`) reduces to "some row matched".
- Concurrent sign-ups racing on the users file are not modelled. The model is one sequential chain of script runs.
- The "No products available yet" and "No buyer requests available" notices (`app.py:118-119,140-141`) are not modelled separately. They appear as an empty listing that does not halt.

=== FILE: credentials.dfy ===
/** The user table: registration by guarded append and login by looking
    up the first row whose username and password hash both match. */
module Credentials {
  import opened Options

  /** The roles the sign-up form offers. */
  datatype Role = Buyer | Customer | Middleman

  /** One row of the user table. */
  datatype User = User(username: string, hashedPassword: string, role: Role)

  /** The user table, in file order; a missing file is the empty table. */
  type Table = seq<User>

  /** The password digest. Only its determinism is relied on: it is a
      parameter, so nothing is assumed about collisions. */
  type Hasher = string -> string

  /** Why the sign-up form refused to create an account. */
  datatype SignUpError = DuplicateUser | MissingFields

  /** The table's invariant: no two rows share a username. */
  ghost predicate UniqueUsernames(t: Table) {
    forall i, j :: 0 <= i < j < |t| ==> t[i].username != t[j].username
  }

  /** A row has the given username and the given digest. */
  predicate Matches(row: User, username: string, digest: string) {
    row.username == username && row.hashedPassword == digest
  }

  /** Membership of the username in the table's username column, found by
      scanning the rows in order: true exactly when some row carries it. */
  predicate UserExists(t: Table, username: string)
    ensures UserExists(t, username) <==> exists i :: 0 <= i < |t| && t[i].username == username
  {
    if |t| == 0 then
      false
    else
      assert forall i :: 0 < i < |t| ==> t[i] == t[1..][i - 1];
      t[0].username == username || UserExists(t[1..], username)
  }

  /** Appends one row to the table. */
  function SaveUser(t: Table, username: string, digest: string, role: Role): (t': Table)
    ensures |t'| == |t| + 1
    ensures t'[..|t|] == t
    ensures t'[|t|] == User(username, digest, role)
  {
    t + [User(username, digest, role)]
  }

  /** Login check: the role of the first row matching the username and the
      digest of the password, or None. An unknown user and a wrong password
      give the same answer. */
  function Authenticate(t: Table, hash: Hasher, username: string, password: string): (r: Option<Role>)
    ensures r.None? <==> forall i :: 0 <= i < |t| ==> !Matches(t[i], username, hash(password))
    ensures r.Some? ==>
              exists i :: 0 <= i < |t| && Matches(t[i], username, hash(password)) && t[i].role == r.value
                          && forall j :: 0 <= j < i ==> !Matches(t[j], username, hash(password))
  {
    if |t| == 0 then
      None
    else if Matches(t[0], username, hash(password)) then
      Some(t[0].role)
    else
      var r := Authenticate(t[1..], hash, username, password);
      assert forall i :: 0 < i < |t| ==> t[i] == t[1..][i - 1];
      r
  }

  /** The sign-up button: a taken username is refused first, then an empty
      username or password; otherwise the row (username, digest, role) is
      appended. */
  function SignUp(t: Table, hash: Hasher, username: string, password: string, role: Role): (res: Result<Table, SignUpError>)
    ensures res == Err(DuplicateUser) <==> UserExists(t, username)
    ensures res == Err(MissingFields) <==> !UserExists(t, username) && (username == "" || password == "")
    ensures res.Ok? ==> res.value == SaveUser(t, username, hash(password), role)
  {
    if UserExists(t, username) then
      Err(DuplicateUser)
    else if username != "" && password != "" then
      Ok(SaveUser(t, username, hash(password), role))
    else
      Err(MissingFields)
  }

  /** Sign-up changes nothing it refuses, and otherwise only appends: every
      earlier row keeps its place. */
  lemma SignUpOnlyAppends(t: Table, hash: Hasher, username: string, password: string, role: Role)
    ensures var res := SignUp(t, hash, username, password, role);
            res.Ok? ==> |res.value| == |t| + 1 && t <= res.value
                        && res.value[|t|] == User(username, hash(password), role)
  {
  }

  /** Registration keeps usernames unique. */
  lemma SignUpPreservesUnique(t: Table, hash: Hasher, username: string, password: string, role: Role)
    requires UniqueUsernames(t)
    ensures var res := SignUp(t, hash, username, password, role);
            res.Ok? ==> UniqueUsernames(res.value)
  {
  }

  /** Appending a row never changes the answer for a login that already
      succeeded: the first match stays first. */
  lemma {:induction false} AuthenticateStableUnderAppend(t: Table, row: User, hash: Hasher, username: string, password: string)
    requires Authenticate(t, hash, username, password).Some?
    ensures Authenticate(t + [row], hash, username, password) == Authenticate(t, hash, username, password)
    decreases |t|
  {
    assert (t + [row])[0] == t[0];
    if !Matches(t[0], username, hash(password)) {
      assert (t + [row])[1..] == t[1..] + [row];
      AuthenticateStableUnderAppend(t[1..], row, hash, username, password);
    }
  }

  /** Register-then-login: a successful sign-up of (username, password, role)
      makes that login answer role. No table invariant is needed, because
      sign-up only succeeds when no earlier row carries the username. */
  lemma SignUpThenAuthenticate(t: Table, hash: Hasher, username: string, password: string, role: Role)
    requires SignUp(t, hash, username, password, role).Ok?
    ensures Authenticate(SignUp(t, hash, username, password, role).value, hash, username, password) == Some(role)
  {
    var t' := SignUp(t, hash, username, password, role).value;
    assert Matches(t'[|t|], username, hash(password));
    assert forall i :: 0 <= i < |t| ==> t'[i] == t[i] && !Matches(t'[i], username, hash(password));
  }

  /** Registering a taken username fails whatever the password and role. */
  lemma DuplicateSignUpRejected(t: Table, hash: Hasher, username: string, password: string, role: Role)
    requires exists i :: 0 <= i < |t| && t[i].username == username
    ensures SignUp(t, hash, username, password, role) == Err(DuplicateUser)
  {
  }

  /** With unique usernames, a password whose digest differs from the stored
      one is refused for a registered user. */
  lemma WrongPasswordRejected(t: Table, hash: Hasher, k: nat, password: string)
    requires UniqueUsernames(t)
    requires k < |t| && hash(password) != t[k].hashedPassword
    ensures Authenticate(t, hash, t[k].username, password) == None
  {
  }

  /** Sign up alice/pw123 as a Buyer on an empty table, then log in with the
      right and with a wrong password. */
  lemma AliceScenario(hash: Hasher)
    requires hash("wrong") != hash("pw123")
    ensures SignUp([], hash, "alice", "pw123", Buyer).Ok?
    ensures var t := SignUp([], hash, "alice", "pw123", Buyer).value;
            Authenticate(t, hash, "alice", "pw123") == Some(Buyer)
            && Authenticate(t, hash, "alice", "wrong") == None
  {
    SignUpThenAuthenticate([], hash, "alice", "pw123", Buyer);
  }
}

=== FILE: dashboard.dfy ===
/** What an authenticated visitor sees: nothing before the confidentiality
    acknowledgment; then Buyers and Customers walk their records in order
    and stop right after the first record the scanner flags, while the
    Middleman sees every table unscanned. */
module Dashboard {
  import opened Scanner
  import opened Credentials
  import opened SessionState

  /** A product offered to buyers. The named columns are what the Buyer
      view displays; the model renders whole rows, so only `scanText`, the
      text the scanner reads for the row, is ever inspected. */
  datatype Product = Product(productName: string, price: real, quantity: int, imagePath: string, scanText: string)

  /** A buyer's requirement shown to sellers; as for products, only
      `scanText` is inspected. */
  datatype Requirement = Requirement(requiredProductName: string, quantity: int, scanText: string)

  /** The three tables; a missing file is an empty sequence. */
  datatype Store = Store(users: Table, products: seq<Product>, requests: seq<Requirement>)

  /** The records a view rendered, and whether rendering stopped on a
      violation. */
  datatype Listing<T> = Listing(shown: seq<T>, halted: bool)

  datatype View =
    | NoDashboard
    | AcknowledgmentRequired
    | BuyerDashboard(offers: Listing<Product>)
    | SellerDashboard(needs: Listing<Requirement>)
    | AdminPanel(users: Table, products: seq<Product>, requests: seq<Requirement>)

  /** The scanner's verdict on a product row. */
  predicate ProductFlagged(p: Product) { DetectViolation(p.scanText) }

  /** The scanner's verdict on a request row. */
  predicate RequirementFlagged(q: Requirement) { DetectViolation(q.scanText) }

  /** Renders rows in order and stops immediately after the first row the
      scanner flags. The rendered rows are a prefix of the input;
      every one but a halting last row is clean; rendering halts exactly
      when some row is flagged, and otherwise shows every row. */
  function ListUntilViolation<T>(rows: seq<T>, flagged: T -> bool): (r: Listing<T>)
    ensures |r.shown| <= |rows| && r.shown == rows[..|r.shown|]
    ensures r.halted <==> exists i :: 0 <= i < |rows| && flagged(rows[i])
    ensures r.halted ==> 0 < |r.shown| && flagged(r.shown[|r.shown| - 1])
    ensures forall i :: 0 <= i < |r.shown| - 1 ==> !flagged(r.shown[i])
    ensures !r.halted ==> r.shown == rows
  {
    if |rows| == 0 then
      Listing([], false)
    else if flagged(rows[0]) then
      Listing([rows[0]], true)
    else
      var tail := rows[1..];
      var rest := ListUntilViolation(tail, flagged);
      assert forall i :: 0 <= i < |tail| ==> tail[i] == rows[i + 1];
      assert [rows[0]] + rest.shown == rows[..|rest.shown| + 1];
      Listing([rows[0]] + rest.shown, rest.halted)
  }

  /** Chooses the view from the session, the acknowledgment box and the
      tables. */
  function Render(s: Session, acknowledged: bool, store: Store): (v: View)
    ensures s.Anonymous? <==> v == NoDashboard
    ensures s.Authenticated? && !acknowledged <==> v == AcknowledgmentRequired
    ensures v.BuyerDashboard? <==> s.Authenticated? && s.role == Buyer && acknowledged
    ensures v.SellerDashboard? <==> s.Authenticated? && s.role == Customer && acknowledged
    ensures v.AdminPanel? <==> s.Authenticated? && s.role == Middleman && acknowledged
  {
    match s
    case Anonymous => NoDashboard
    case Authenticated(role, _) =>
      if !acknowledged then
        AcknowledgmentRequired
      else
        match role
        case Buyer => BuyerDashboard(ListUntilViolation(store.products, ProductFlagged))
        case Customer => SellerDashboard(ListUntilViolation(store.requests, RequirementFlagged))
        case Middleman => AdminPanel(store.users, store.products, store.requests)
  }

  /** The number of records a view puts on the page. */
  function RecordsShown(v: View): nat {
    match v
    case NoDashboard => 0
    case AcknowledgmentRequired => 0
    case BuyerDashboard(l) => |l.shown|
    case SellerDashboard(l) => |l.shown|
    case AdminPanel(u, p, q) => |u| + |p| + |q|
  }

  /** Without the acknowledgment no record is rendered, whoever is logged in. */
  lemma NoAcknowledgmentNoRecords(s: Session, store: Store)
    ensures RecordsShown(Render(s, false, store)) == 0
  {
  }

  /** Rendering shows the rows up to and including the first flagged one,
      and nothing after it. */
  lemma HaltsAtFirstViolation<T>(rows: seq<T>, flagged: T -> bool, k: nat)
    requires k < |rows| && flagged(rows[k])
    requires forall i :: 0 <= i < k ==> !flagged(rows[i])
    ensures ListUntilViolation(rows, flagged) == Listing(rows[..k + 1], true)
  {
  }

  /** The buyer sees the products up to and including the first flagged one,
      in order, and nothing after it. */
  lemma BuyerStopsAtFirstViolation(username: string, store: Store, k: nat)
    requires k < |store.products| && DetectViolation(store.products[k].scanText)
    requires forall i :: 0 <= i < k ==> !DetectViolation(store.products[i].scanText)
    ensures Render(Authenticated(Buyer, username), true, store)
            == BuyerDashboard(Listing(store.products[..k + 1], true))
  {
    HaltsAtFirstViolation(store.products, ProductFlagged, k);
  }

  /** The seller sees the requests up to and including the first flagged
      one, in order, and nothing after it. */
  lemma SellerStopsAtFirstViolation(username: string, store: Store, k: nat)
    requires k < |store.requests| && DetectViolation(store.requests[k].scanText)
    requires forall i :: 0 <= i < k ==> !DetectViolation(store.requests[i].scanText)
    ensures Render(Authenticated(Customer, username), true, store)
            == SellerDashboard(Listing(store.requests[..k + 1], true))
  {
    HaltsAtFirstViolation(store.requests, RequirementFlagged, k);
  }

  /** Clean products are all shown to the buyer. */
  lemma BuyerSeesAllCleanProducts(username: string, store: Store)
    requires forall i :: 0 <= i < |store.products| ==> !DetectViolation(store.products[i].scanText)
    ensures Render(Authenticated(Buyer, username), true, store)
            == BuyerDashboard(Listing(store.products, false))
  {
  }

  /** Clean requests are all shown to the seller. */
  lemma SellerSeesAllCleanRequests(username: string, store: Store)
    requires forall i :: 0 <= i < |store.requests| ==> !DetectViolation(store.requests[i].scanText)
    ensures Render(Authenticated(Customer, username), true, store)
            == SellerDashboard(Listing(store.requests, false))
  {
  }

  /** The Middleman sees all three tables whole, flagged records included. */
  lemma MiddlemanSeesEverything(username: string, store: Store)
    ensures Render(Authenticated(Middleman, username), true, store)
            == AdminPanel(store.users, store.products, store.requests)
    ensures RecordsShown(Render(Authenticated(Middleman, username), true, store))
            == |store.users| + |store.products| + |store.requests|
  {
  }
}

=== FILE: options.dfy ===
/** Optional values and error-carrying results shared by the portal modules. */
module Options {

  /** A value that may be absent, as Python's `None`. */
  datatype Option<+T> = None | Some(value: T)

  /** Either a value or the reason an operation refused. */
  datatype Result<+T, +E> = Ok(value: T) | Err(error: E)
}

=== FILE: portal.dfy ===
/** One run of the portal script: restore or start the session, handle the
    chosen form (Sign Up or Login), then render the dashboard for whatever
    session results. Runs chain: each starts from the session the previous
    one left. */
module Portal {
  import opened Options
  import opened Credentials
  import opened SessionState
  import opened Dashboard

  /** The sidebar choice with the form's fields and whether its button was
      pressed in this run. */
  datatype Action =
    | SignUpForm(username: string, password: string, role: Role, pressed: bool)
    | LoginForm(username: string, password: string, pressed: bool)

  /** The message the form shows after its button. */
  datatype Notice =
    | Quiet
    | UserAlreadyExists
    | RegistrationSuccessful
    | FillAllFields
    | Welcome(username: string)
    | InvalidCredentials

  datatype Outcome = Outcome(session: Session, store: Store, notice: Notice, view: View)

  /** One interaction: the form chosen and the state of the acknowledgment
      box. */
  datatype Interaction = Interaction(action: Action, acknowledged: bool)

  /** One run of the script. Sign-up never touches the session and login
      never touches the tables; the dashboard is rendered from the session
      and tables as the form left them. */
  function Step(prior: Option<Session>, store: Store, hash: Hasher, action: Action, acknowledged: bool): (o: Outcome)
    ensures action.SignUpForm? ==> o.session == Start(prior)
    ensures action.LoginForm? ==> o.store == store
    ensures o.store.products == store.products && o.store.requests == store.requests
    ensures store.users <= o.store.users && |o.store.users| <= |store.users| + 1
    ensures o.session != Start(prior) ==>
              action.LoginForm? && action.pressed && o.session.Authenticated?
              && o.session.username == action.username
    ensures !action.pressed ==> o.session == Start(prior) && o.store == store
    ensures action.LoginForm? && action.pressed ==>
              o.session == Login(Start(prior), store.users, hash, action.username, action.password)
    ensures action.SignUpForm? && action.pressed ==>
              var res := SignUp(store.users, hash, action.username, action.password, action.role);
              (res.Ok? ==> o.store == store.(users := res.value)) && (res.Err? ==> o.store == store)
    ensures o.view == Render(o.session, acknowledged, o.store)
    ensures o.session.Anonymous? ==> o.view == NoDashboard
  {
    var s := Start(prior);
    match action
    case SignUpForm(username, password, role, pressed) =>
      if !pressed then
        Outcome(s, store, Quiet, Render(s, acknowledged, store))
      else
        (match SignUp(store.users, hash, username, password, role)
         case Ok(t) =>
           var store' := store.(users := t);
           Outcome(s, store', RegistrationSuccessful, Render(s, acknowledged, store'))
         case Err(DuplicateUser) =>
           Outcome(s, store, UserAlreadyExists, Render(s, acknowledged, store))
         case Err(MissingFields) =>
           Outcome(s, store, FillAllFields, Render(s, acknowledged, store)))
    case LoginForm(username, password, pressed) =>
      if !pressed then
        Outcome(s, store, Quiet, Render(s, acknowledged, store))
      else
        var s' := Login(s, store.users, hash, username, password);
        var notice := if Authenticate(store.users, hash, username, password).Some? then Welcome(username) else InvalidCredentials;
        Outcome(s', store, notice, Render(s', acknowledged, store))
  }

  /** The session and tables after a sequence of runs. */
  function Run(prior: Option<Session>, store: Store, hash: Hasher, steps: seq<Interaction>): (Session, Store)
    decreases |steps|
  {
    if |steps| == 0 then
      (Start(prior), store)
    else
      var o := Step(prior, store, hash, steps[0].action, steps[0].acknowledged);
      Run(Some(o.session), o.store, hash, steps[1..])
  }

  /** The portal's invariant: usernames are unique and an authenticated
      session names a row of the user table with its role. */
  ghost predicate Consistent(s: Session, store: Store) {
    UniqueUsernames(store.users) && Backed(s, store.users)
  }

  lemma StepPreservesConsistent(prior: Option<Session>, store: Store, hash: Hasher, action: Action, acknowledged: bool)
    requires Consistent(Start(prior), store)
    ensures var o := Step(prior, store, hash, action, acknowledged);
            Consistent(o.session, o.store)
  {
    var o := Step(prior, store, hash, action, acknowledged);
    match action
    case SignUpForm(username, password, role, pressed) =>
      SignUpPreservesUnique(store.users, hash, username, password, role);
      BackedUnderAppend(Start(prior), store.users, o.store.users);
    case LoginForm(username, password, pressed) =>
      LoginKeepsBacked(Start(prior), store.users, hash, username, password);
  }

  /** Over any sequence of runs the invariant holds and the user table only
      grows by appending. */
  lemma {:induction false} RunPreservesConsistent(prior: Option<Session>, store: Store, hash: Hasher, steps: seq<Interaction>)
    requires Consistent(Start(prior), store)
    ensures var (s, store') := Run(prior, store, hash, steps);
            Consistent(s, store') && store.users <= store'.users
    decreases |steps|
  {
    if |steps| > 0 {
      var o := Step(prior, store, hash, steps[0].action, steps[0].acknowledged);
      StepPreservesConsistent(prior, store, hash, steps[0].action, steps[0].acknowledged);
      RunPreservesConsistent(Some(o.session), o.store, hash, steps[1..]);
    }
  }

  /** A visitor who never presses Login stays anonymous. */
  lemma {:induction false} AnonymousWithoutLogin(prior: Option<Session>, store: Store, hash: Hasher, steps: seq<Interaction>)
    requires Start(prior) == Anonymous
    requires forall k :: 0 <= k < |steps| ==> !(steps[k].action.LoginForm? && steps[k].action.pressed)
    ensures Run(prior, store, hash, steps).0 == Anonymous
    decreases |steps|
  {
    if |steps| > 0 {
      var o := Step(prior, store, hash, steps[0].action, steps[0].acknowledged);
      assert forall k :: 0 <= k < |steps| - 1 ==> steps[1..][k] == steps[k + 1];
      AnonymousWithoutLogin(Some(o.session), o.store, hash, steps[1..]);
    }
  }

  /** A fresh visitor signs up, then logs in with the same credentials. The
      acknowledgment box is first drawn in the login run, so it is unticked
      there and that run only shows the warning; once the box is ticked in
      the next run (the Login button not pressed again), the dashboard of
      the registered role is rendered. */
  lemma SignUpThenLoginDashboard(store: Store, hash: Hasher, username: string, password: string, role: Role)
    requires SignUp(store.users, hash, username, password, role).Ok?
    ensures var o1 := Step(None, store, hash, SignUpForm(username, password, role, true), false);
            var o2 := Step(Some(o1.session), o1.store, hash, LoginForm(username, password, true), false);
            var o3 := Step(Some(o2.session), o2.store, hash, LoginForm(username, password, false), true);
            o1.session == Anonymous && o1.view == NoDashboard && o1.notice == RegistrationSuccessful
            && o2.session == Authenticated(role, username) && o2.notice == Welcome(username)
            && o2.view == AcknowledgmentRequired
            && o3.session == Authenticated(role, username) && o3.store == o1.store
            && o3.view == Render(Authenticated(role, username), true, o1.store)
  {
    SignUpThenAuthenticate(store.users, hash, username, password, role);
  }

  /** A failed login changes neither the session nor the tables. */
  lemma FailedLoginChangesNothing(prior: Option<Session>, store: Store, hash: Hasher, username: string, password: string, acknowledged: bool)
    requires Authenticate(store.users, hash, username, password).None?
    ensures var o := Step(prior, store, hash, LoginForm(username, password, true), acknowledged);
            o.session == Start(prior) && o.store == store && o.notice == InvalidCredentials
  {
  }
}

=== FILE: scanner.dfy ===
/** The confidentiality scanner: a text violates the policy when, once
    lower-cased, it contains one of six fixed keywords. */
module Scanner {

  /** The forbidden keywords, in the order the scanner tries them. */
  const Keywords: seq<string> := ["email", "@", "phone", "contact", "whatsapp", "mobile"]

  /** ASCII lower-casing of one character. */
  function LowerChar(c: char): char {
    if 'A' <= c <= 'Z' then (c as int + 32) as char else c
  }

  /** ASCII lower-casing of a string, character by character. */
  function Lower(s: string): string {
    seq(|s|, i requires 0 <= i < |s| => LowerChar(s[i]))
  }

  /** `k` is a contiguous slice of `s`: the reference meaning of substring. */
  ghost predicate IsSubstring(k: string, s: string) {
    exists i, j :: 0 <= i <= j <= |s| && s[i..j] == k
  }

  /** Python's `k in s` on strings, as a search over the suffixes of `s`. */
  predicate Occurs(k: string, s: string)
    decreases |s|
  {
    k <= s || (|s| > 0 && Occurs(k, s[1..]))
  }

  lemma {:induction false} OccursIsSubstring(k: string, s: string)
    requires Occurs(k, s)
    ensures IsSubstring(k, s)
    decreases |s|
  {
    if k <= s {
      assert s[0..|k|] == k;
    } else {
      var tail := s[1..];
      OccursIsSubstring(k, tail);
      var i, j :| 0 <= i <= j <= |tail| && tail[i..j] == k;
      assert tail[i..j] == s[i + 1..j + 1];
    }
  }

  lemma {:induction false} SubstringOccurs(k: string, s: string)
    requires IsSubstring(k, s)
    ensures Occurs(k, s)
    decreases |s|
  {
    var i, j :| 0 <= i <= j <= |s| && s[i..j] == k;
    if i == 0 {
      assert k == s[..j];
    } else {
      assert s[1..][i - 1..j - 1] == k;
      SubstringOccurs(k, s[1..]);
    }
  }

  /** The search agrees with the slice definition in both directions. */
  lemma OccursIffSubstring(k: string, s: string)
    ensures Occurs(k, s) <==> IsSubstring(k, s)
  {
    if Occurs(k, s) {
      OccursIsSubstring(k, s);
    }
    if IsSubstring(k, s) {
      SubstringOccurs(k, s);
    }
  }

  /** The keyword loop: tries the keywords in order and stops at the first
      one found in the already lower-cased text. */
  predicate ScanKeywords(ks: seq<string>, lowered: string)
    ensures ScanKeywords(ks, lowered) <==>
              exists n :: 0 <= n < |ks| && IsSubstring(ks[n], lowered)
  {
    if |ks| == 0 then
      false
    else
      OccursIffSubstring(ks[0], lowered);
      assert forall n :: 0 < n < |ks| ==> ks[n] == ks[1..][n - 1];
      Occurs(ks[0], lowered) || ScanKeywords(ks[1..], lowered)
  }

  /** The policy check applied to every rendered record. */
  predicate DetectViolation(text: string)
    ensures DetectViolation(text) <==>
              exists n :: 0 <= n < |Keywords| && IsSubstring(Keywords[n], Lower(text))
  {
    ScanKeywords(Keywords, Lower(text))
  }

  /** Lower-casing twice is lower-casing once. */
  lemma LowerIdempotent(s: string)
    ensures Lower(Lower(s)) == Lower(s)
  {
  }

  /** The scanner cannot tell a text from its lower-cased form. */
  lemma DetectViolationCaseInsensitive(text: string)
    ensures DetectViolation(text) == DetectViolation(Lower(text))
  {
    LowerIdempotent(text);
  }

  /** A keyword with a character absent from the text cannot occur in it. */
  lemma MissingCharNotSubstring(k: string, s: string, c: char)
    requires c in k && c !in s
    ensures !IsSubstring(k, s)
  {
  }

  /** Contact details are flagged. */
  lemma ContactDetailsFlagged()
    ensures DetectViolation("contact me at x@y.com")
  {
    var lt := Lower("contact me at x@y.com");
    assert lt[0..7] == Keywords[3];
  }

  /** An innocent product name is flagged too: the scanner matches
      substrings, not intent. */
  lemma ContactPaperFlagged()
    ensures DetectViolation("Contact Paper roll")
  {
    var lt := Lower("Contact Paper roll");
    assert lt[0..7] == Keywords[3];
  }

  /** Lower-casing the plain product text only touches its capital M. */
  lemma LowerPlainText()
    ensures Lower("blue t-shirt, size M") == "blue t-shirt, size m"
  {
  }

  /** A lower-case text without 'a', '@', 'p' and 'o' contains no keyword:
      each keyword has one of those characters. */
  lemma NoKeywordWithout(s: string)
    requires 'a' !in s && '@' !in s && 'p' !in s && 'o' !in s
    ensures forall n :: 0 <= n < |Keywords| ==> !IsSubstring(Keywords[n], s)
  {
    MissingCharNotSubstring("email", s, 'a');
    MissingCharNotSubstring("@", s, '@');
    MissingCharNotSubstring("phone", s, 'p');
    MissingCharNotSubstring("contact", s, 'o');
    MissingCharNotSubstring("whatsapp", s, 'a');
    MissingCharNotSubstring("mobile", s, 'o');
  }

  /** Plain product text without any keyword passes. */
  lemma PlainTextPasses()
    ensures !DetectViolation("blue t-shirt, size M")
  {
    LowerPlainText();
    NoKeywordWithout("blue t-shirt, size m");
  }
}

=== FILE: session.dfy ===
/** The per-visitor session: anonymous until a login succeeds, then the
    role and username of the matched row. */
module SessionState {
  import opened Options
  import opened Credentials

  datatype Session = Anonymous | Authenticated(role: Role, username: string)

  /** The session a script run works with: a fresh visitor starts anonymous,
      a returning one keeps the state of the previous run. */
  function Start(prior: Option<Session>): (s: Session)
    ensures prior.Some? ==> s == prior.value
    ensures s.Authenticated? ==> prior == Some(s)
  {
    match prior
    case None => Anonymous
    case Some(s) => s
  }

  /** An authenticated session belongs to a row of the table. */
  ghost predicate Backed(s: Session, t: Table) {
    s.Authenticated? ==> exists i :: 0 <= i < |t| && t[i].username == s.username && t[i].role == s.role
  }

  /** The login button: on a match the session takes the role of the first
      matching row and the typed username; otherwise it is left exactly as
      it was. */
  function Login(s: Session, t: Table, hash: Hasher, username: string, password: string): (s': Session)
    ensures (forall i :: 0 <= i < |t| ==> !Matches(t[i], username, hash(password))) ==> s' == s
    ensures (exists i :: 0 <= i < |t| && Matches(t[i], username, hash(password))) ==>
              s'.Authenticated? && s'.username == username
              && exists i :: 0 <= i < |t| && Matches(t[i], username, hash(password)) && t[i].role == s'.role
                            && forall j :: 0 <= j < i ==> !Matches(t[j], username, hash(password))
  {
    match Authenticate(t, hash, username, password)
    case Some(role) => Authenticated(role, username)
    case None => s
  }

  /** A fresh visitor is anonymous: no role, no username. */
  lemma FreshSessionAnonymous()
    ensures Start(None) == Anonymous
    ensures Backed(Start(None), [])
  {
  }

  /** Logging in keeps an authenticated session tied to a row of the table. */
  lemma LoginKeepsBacked(s: Session, t: Table, hash: Hasher, username: string, password: string)
    requires Backed(s, t)
    ensures Backed(Login(s, t, hash, username, password), t)
  {
  }

  /** A table that only grew keeps every session it backed. */
  lemma BackedUnderAppend(s: Session, t: Table, t': Table)
    requires Backed(s, t) && t <= t'
    ensures Backed(s, t')
  {
  }
}
